=== FILE: README.md ===
# Triven Shop cart, checkout and order review, in Dafny

This project models the cart → checkout → order-review flow of the Triven
Shop Django store (`products/views.py`). Each view is a pure function from
the state it reads to the state it writes plus an outcome tag standing for
the message or error it reports. Three pieces of state are involved:

- the **session cart**, an insertion-ordered dictionary from product key to
  an entry of quantity, unit price in cents and a stock snapshot. It is
  modelled as a sequence of lines with distinct ids (`Cart.Cart`), and the
  session also holds the purchase code (`Cart.Session`);
- the **product table**, a map from product id to price, quantity on hand,
  a published flag and whether the product has a cover image, since the
  image field may be left empty (`Catalog.Catalog`);
- the **order table**, purchase orders with a code, a subtotal, a status
  (`Pendiente`, `Aprobada`, `Rechazada`) and line items. Each line item has
  a nullable product reference, a quantity and a unit price (`Orders.Store`).

Modules:

- `Basics`: `Option` and `Step`.
- `Catalog`: the product table.
- `Cart`: dictionary operations on the cart.
- `CartViews`: `add_to_cart`, `update_cart_quantity`, `remove_from_cart`,
  `clear_cart` and `carrito`.
- `Text`: Python's `str.strip()`.
- `Orders`: the order records.
- `Purchase`: `compra_productos`, with its transaction as `Commit`.
- `Review`: `orden_aprobar` and `orden_rechazar`.
- `Scenarios`: properties spanning several views.

Prices are integer cents. The price field has two decimal places
(`products/models.py:19`), so no rounding is modelled. Stock is an
unbounded `int`: the field is a plain `IntegerField` (`products/models.py:20`)
with no lower bound, and the database column's finite range is left out
(see below).

## Model

| member | source | states |
|---|---|---|
| CartViews.RequestedUnits | products/views.py:322-329 | The add form's quantity is at least 1. A parsed value of 1 or more is kept. A value below 1, or one that does not parse, reads as 1. |
| CartViews.AddToCart | products/views.py:319-375 | An unknown or unpublished product changes nothing. If the current quantity plus the request fits the stock, the entry grows by exactly the request; a new entry is created with the request, the product's price and its stock stamp, at the end of the cart. Creating an entry reads the image URL, so a product without a cover image gives the ValueError outcome and the cart is unchanged. An existing key keeps its position. Past the stock, an existing entry is raised to exactly the stock when there is headroom. With no headroom the cart is unchanged. A missing entry that needs clamping gives the KeyError outcome and the cart is unchanged. No other key is touched. Only the quantity of an existing entry changes. Every accepted add leaves the entry within stock. |
| CartViews.AddToCartCorrected | products/views.py:344-350 | With the clamp creating the missing entry, the add never fails on a missing key. A listed product with stock and a cover image that is not yet in the cart gets min(request, stock) units, appended at the end; without a cover image it gives the ValueError outcome. |
| CartViews.AddWithoutImageCrashes | products/views.py:358-365 | Adding one unit of a listed product with stock but no cover image to an empty cart gives the ValueError outcome and leaves the cart empty. |
| CartViews.AddOverStockToEmptyCartCrashes | products/views.py:348-350 | Adding 5 units of a product with stock 3 to an empty cart gives the KeyError outcome. The corrected add creates an entry of 3. |
| CartViews.AddThenRemove | products/views.py:366-375 | Adding a product not in the cart and then deleting its key gives back the original cart: the add only appends one line. |
| CartViews.UpdateCartQuantity | products/views.py:393-426 | An unparsable quantity, a key not in the cart, or an unlisted product changes nothing. Otherwise the entry's quantity becomes min(max(q, 1), stock) and its stock stamp becomes the live stock. The outcome is "updated" exactly when that value is positive; when it is not, nothing changes. Keys, their order and every other entry are unchanged. |
| CartViews.UpdateIdempotent | products/views.py:413-422 | Submitting the same quantity a second time leaves the cart as the first submission left it. |
| CartViews.RemoveFromCart | products/views.py:378-390 | The key is gone, every other entry is unchanged, and removing an absent key leaves the cart unchanged. Distinct keys stay distinct. In a cart with distinct keys, exactly the removed key's line is cut out and the other lines keep their order. |
| CartViews.RemoveIdempotent | products/views.py:385-388 | Removing the same product twice is the same as removing it once. |
| CartViews.ClearCart | products/views.py:429-435 | The cart is emptied, with no entries and a zero subtotal. The purchase code is kept. |
| CartViews.ViewCart | products/views.py:438-507 | The cart left behind keeps its keys in order, and the page has one row per entry. Afterwards every stored quantity is at most the live stock, a missing product counting as 0. Entries already within stock are unchanged. An entry over stock has only its quantity changed, to the live stock. The subtotal is the subtotal of the cart as it was before the cut. |
| CartViews.ViewCartRows | products/views.py:459-501 | The page has one row per cart line, in cart order, naming the line's product with its snapshot price and the live stock (0 for a missing product). Each row shows the quantity left in the cart and the total of the quantity before the cut. It carries a warning when the quantity was cut and an unavailable mark when the live stock is 0. |
| CartViews.ViewCartIdempotent | products/views.py:475-479 | Showing the cart page a second time changes the cart no further. |
| CartViews.ViewCartCorrected | products/views.py:463-479 | With the totals taken after the cut, each row total is price times the shown quantity and the subtotal is the subtotal of the cart left behind. The cart it leaves is the one the view as written leaves. |
| CartViews.ViewSubtotalCountsClampedUnits | products/views.py:463-479 | A cart holding 5 units at 10.00 with live stock 3 shows 3 units but a subtotal of 50.00 instead of 30.00. |
| Cart.Put | products/views.py:350 | Dictionary assignment: the key maps to the new entry and every other key's entry is unchanged. |
| Cart.PutKeys | products/views.py:360-371 | Assigning an existing key keeps its position. A new key goes to the end. Keys stay distinct. |
| Cart.Delete | products/views.py:385-386 | `del cart[key]`: the key is gone, other entries are unchanged, and a cart without the key is unchanged. |
| Cart.DeleteDropsAt | products/views.py:385-386 | In a cart with distinct keys, deleting the key of line i leaves the lines before and after it, in their order. |
| Text.Strip | products/views.py:535 | `str.strip()`: neither end of the result is white space in Python's sense. The result is no longer than the input, and it is empty exactly when the input is all white space. |
| Text.StripDropsOnlySpace | products/views.py:535 | The input is white space, then the stripped text, then white space. |
| Text.StripPadded | products/views.py:535 | A text with no white space at its ends, padded with any white space, strips back to itself. |
| Text.StripIdempotent | products/views.py:535 | Stripping twice is stripping once. |
| Text.StripTrimmed | products/views.py:535 | A text with no white space at its ends strips to itself. |
| Purchase.Reserve | products/views.py:559-587 | The stock loop keeps the product keys, and a failure names a product of the cart. |
| Purchase.ReserveWritesCartLines | products/views.py:573-587 | A successful loop writes one line per cart entry, in cart order, with the entry's quantity and snapshot price. Its total is both the cart's subtotal and the lines' total. |
| Purchase.ReserveSucceedsIffAvailable | products/views.py:566-570 | For a cart with distinct keys, the loop succeeds exactly when every product exists and has at least the cart's quantity in stock. |
| Purchase.ReserveTakesCartQuantities | products/views.py:571-572 | On success each product's stock drops by exactly the cart's quantity of it. Every other field and product is unchanged. |
| Purchase.ReserveLeavesStockNonNegative | products/views.py:568-572 | On success no product of the cart is left with negative stock. |
| Purchase.ReserveFailureNamesCulprit | products/views.py:566-569 | A failure names a cart product that is missing, or one whose stock is below the cart's quantity and reported as the remaining stock. |
| Purchase.Commit | products/views.py:549-600 | The transaction either appends exactly one pending order, with the cart's lines, its subtotal and a balanced total, at the next order key, or leaves the store exactly as it was. For a cart with distinct keys it succeeds exactly when every product is available. Then each product's stock drops by exactly the cart's quantity of it, and no product of the cart goes negative. |
| Purchase.Checkout | products/views.py:513-644 | An empty cart changes nothing. Any outcome other than a placed order leaves the stock, the orders and the cart as they were. The purchase code is issued only when the session has none, and is otherwise kept unchanged. Showing the form reports the code. A submission that differs from the code after stripping is a mismatch. A placed order requires a non-empty cart, a matching code, an image and no storage fault, and empties the session. When those hold, the store and the outcome are exactly the transaction's. Balanced order tables stay balanced. |
| Purchase.CheckoutAllOrNothing | products/views.py:543-637 | For a cart with distinct keys, an order is placed exactly when the cart is non-empty, the code and image are right, nothing fails to save and every product has the stock. Then one pending order for the cart is appended and the cart's quantities are taken off the stock. Otherwise the store is unchanged. |
| Purchase.CommitTakesCart | products/views.py:549-600 | For a cart with distinct keys the transaction places an order exactly when every product is available, and then appends one pending order for the cart and takes the cart's quantities off the stock, none going below zero. |
| Purchase.CheckoutKeepsStockNonNegative | products/views.py:566-572 | A checkout never drives a product's stock below zero when none was negative before. |
| Purchase.PaddedCodeConfirms | products/views.py:523-535 | A generated code of eight upper-case hex digits, typed back with white space around it, is accepted. |
| Review.Approve | products/views.py:181-193 | A pending order becomes approved and nothing else changes. A missing order is not found. An order in any other state is reported with its status and nothing changes. Stock is never touched. |
| Review.ApproveTwice | products/views.py:186-191 | Approving an approved order reports it as no longer pending and changes nothing. |
| Review.Restock | products/views.py:209-212 | The restocking loop succeeds exactly when every line's product reference is set and the product still exists. Then every product's stock grows by exactly the units the lines hold of it, and the keys are unchanged. |
| Review.Reject | products/views.py:197-221 | A pending order whose products all exist becomes rejected, and each product gets back the units the order's lines hold of it. A line whose product is gone rolls the whole rejection back. A missing order, or one that is not pending, changes nothing. Other orders are never touched. |
| Review.RejectTwice | products/views.py:201-219 | A second rejection changes nothing more. |
| Review.DecidedOrdersAreFinal | products/views.py:186-219 | Neither review view changes an order that is already approved or rejected. |
| Review.RejectTwoProducts | products/views.py:201-212 | A pending order of A x2 and B x1 gives A 2 units and B 1 unit back, and becomes rejected; rejecting again is a no-op. |
| Scenarios.ReturnedIsCartQuantity | products/views.py:573-580 | The lines a checkout writes hold, per product, exactly the cart's quantity of it. |
| Scenarios.RejectUndoesCommit | products/views.py:197-221 | The transaction for an available cart with distinct keys places its order. Rejecting that order restores the product table exactly and keeps the order on record as rejected. |
| Scenarios.RejectUndoesCheckout | products/views.py:197-221 | A confirmed checkout with an image of an available cart with distinct keys places its order. Rejecting that order restores the product table to what it was before the checkout and keeps the order on record as rejected. |
| Scenarios.ConfirmedCheckoutCommits | products/views.py:535-637 | A confirmed submission with an image does to the store what the transaction does. It empties the session exactly when an order is placed, and otherwise keeps the cart and the code. |
| Scenarios.BuyLastUnit | products/views.py:566-572 | Buying the one unit left places the order and leaves stock 0. |
| Scenarios.NoUnitLeft | products/views.py:566-569 | With stock 0 the same checkout fails for lack of stock, reports 0 remaining, and changes nothing. |
| Scenarios.LastUnitSoldOnce | products/views.py:549-600 | Two buyers holding the last unit, checked out one after the other: the first gets it, and the second fails, writes no order and keeps the cart. |
| Scenarios.SequentialCheckoutsNeverOversell | products/views.py:566-572 | When two checkouts in a row both place orders, every product of the second cart had stock for both carts' quantities of it together. |
| Scenarios.ClearedCartChecksOutNothing | products/views.py:429-435 | After clearing the cart a checkout reports an empty cart and changes nothing. |

## Left out

- Rendering, redirects, `messages` text and the context the templates receive. Each view's message is reduced to an outcome tag.
- The request-method checks and `@login_required`. `add_to_cart`, `update_cart_quantity` and `clear_cart` do nothing unless the request is a POST, and `orden_aprobar` and `orden_rechazar` refuse any other method (`@require_POST`); these views are modelled for a POST only. `remove_from_cart` has no method check and deletes the key on any request, as modelled. `carrito` writes the cut quantities back on a plain GET, and `compra_productos` issues the purchase code on a GET, both as modelled.
- Parsing of the quantity text by `int()`. The submitted quantity is an `Option<int>`, with `None` for text that does not parse or a missing field.
- The exchange-rate conversion (`get_exchange_rate`, the VES prices), because it is an external call on floats.
- The float and `Decimal(str(...))` round trip of prices. Prices are integer cents.
- `uuid.uuid4()`: the fresh purchase code is an input of `Purchase.Checkout`. `Purchase.GeneratedShape` states the shape such a code has.
- Saving the proof image, and the `IntegrityError` of a duplicate purchase code. Both are the single `storageFault` input. Since either failure rolls back the whole transaction, it is checked before the stock loop.
- The WhatsApp message and link built after a placed order.
- The title and image URL stored in a new cart entry, the item snapshots of title and description, and the order's user. They are stored but no property depends on them. Reading the image URL when a cart entry is created is modelled, because a product without an image makes it fail: that is the `NoImage` outcome.
- Row locking with `select_for_update` and real concurrency. Each view call is one sequential, atomic step.
- `products_store`, the product CRUD views, the authentication views, admin, forms and the context processor, which are outside this flow.
- `products/views.py:10` imports `OrdenDeCompra` and `ItemOrden`, but their model file is not part of this model. Their fields are those the views write (`products/views.py:552-583`). The order key is the order's position in the table.
- Where the code does not do what its messages and docstrings suggest, the model follows the code:
  - a rejection with a line whose product is gone fails as a whole instead of skipping that line;
  - the submitted code is compared after `strip()` and a missing field is the text `"None"`;
  - the purchase code is issued on any visit with a non-empty cart, including a failed submission;
  - stock may be negative, because the field has no lower bound.
- Cart keys are taken to be canonical product ids. `add_to_cart` keys the cart by the posted text, `str(producto_id)` (`products/views.py:322`, `products/views.py:335`), while `get_object_or_404` converts that text to a number. So posting `"07"` and then `"7"` for product 7 stores two keys for one product. `carrito` would then show two rows, the checkout loop would take product 7's stock twice and write two order lines, and `remove_from_cart(7)` would never remove `"07"`. The model's cart cannot hold such aliases, so every property stated "for a cart with distinct keys" assumes canonical keys.
- The range of the stock column. Django documents −2147483648..2147483647 as the `IntegerField` range that is safe on every database backend; on a backend that enforces it (PostgreSQL, or MySQL in strict mode), saving a value outside it raises a database error, while SQLite stores 64-bit integers and accepts it. Which backend the shop uses is not part of this model. In `orden_rechazar` such an error is caught (`products/views.py:215-216`) and the whole rejection rolls back, and in `compra_productos` it aborts the checkout (`products/views.py:634-637`). The model's stock is unbounded, so `Review.Reject`, `Review.Restock`, `Purchase.Commit` and `Purchase.Checkout` succeed where such a save would fail.
- Purchase.Reserve: its contract states only that the keys are kept and that failures name a cart product. The counting facts are in the lemmas `ReserveWritesCartLines`, `ReserveSucceedsIffAvailable`, `ReserveTakesCartQuantities` and `ReserveFailureNamesCulprit`, which need distinct cart keys.

## Findings

| source | as written | input that shows it | evidently intended | confidence | as-written member | corrected member |
|---|---|---|---|---|---|---|
| products/views.py:344-350 | The clamp branch writes `cart[key]['cantidad']` by direct indexing, so a product not yet in the cart raises `KeyError`. | Empty cart, product with stock 3, request 5. | Create the entry with the stock as its quantity, as the warning message claims. | not executed | CartViews.AddToCart, CartViews.AddOverStockToEmptyCartCrashes | CartViews.AddToCartCorrected |
| products/views.py:463-479 | The row total and subtotal are computed before the quantity is cut down to the live stock. | Cart with 5 units at 10.00, live stock 3: the page shows 3 units and a subtotal of 50.00. | Compute the totals from the cut quantity, so the page adds up. | not executed | CartViews.ViewCart, CartViews.ViewSubtotalCountsClampedUnits | CartViews.ViewCartCorrected |

=== FILE: basics.dfy ===
/** Small shared datatypes for the storefront model. */
module Basics {

  /** A value that may be absent (a missing form field, a null reference). */
  datatype Option<+T> = None | Some(value: T)

  /** The result of one view call: the state it leaves behind and what it reports. */
  datatype Step<+S, +O> = Step(state: S, outcome: O)
}

=== FILE: cart.dfy ===
/**
 * The session cart: a dictionary from product id to an entry. Python
 * dictionaries keep insertion order and the checkout walks the cart in that
 * order, so the cart is a sequence of lines; the views keep its ids
 * distinct, and `Get` gives the dictionary view of it. A key is the
 * product id itself, not the text it was posted as.
 */
module Cart {
  import opened Basics
  import opened Catalog

  /**
   * One cart entry: the quantity wanted, the unit price in cents copied when
   * the entry was created, and the stock figure recorded at that time.
   */
  datatype Entry = Entry(qty: int, priceCents: int, stockSnapshot: int)

  /** A dictionary key together with its entry. */
  datatype Line = Line(id: ProductId, entry: Entry)

  type Cart = seq<Line>

  /** The session state the cart and checkout views use: the cart and the purchase code. */
  datatype Session = Session(cart: Cart, token: Option<string>)

  /** The keys of the cart, in insertion order. */
  function Ids(c: Cart): (r: seq<ProductId>)
    ensures |r| == |c|
    ensures forall i | 0 <= i < |c| :: r[i] == c[i].id
  {
    if |c| == 0 then [] else [c[0].id] + Ids(c[1..])
  }

  /** No key occurs twice: the invariant of a dictionary. */
  predicate DistinctIds(c: Cart)
  {
    |c| == 0 || (c[0].id !in Ids(c[1..]) && DistinctIds(c[1..]))
  }

  /** Dictionary lookup: the entry stored under `id`, if any. */
  function Get(c: Cart, id: ProductId): (r: Option<Entry>)
    ensures r.Some? <==> id in Ids(c)
  {
    if |c| == 0 then None
    else if c[0].id == id then Some(c[0].entry)
    else Get(c[1..], id)
  }

  /** In a cart with distinct keys, looking up a line's key finds that line. */
  lemma {:induction false} GetFindsLine(c: Cart, i: int)
    requires DistinctIds(c) && 0 <= i < |c|
    ensures Get(c, c[i].id) == Some(c[i].entry)
  {
    if i > 0 {
      assert c[i] == c[1..][i - 1];
      assert Ids(c[1..])[i - 1] == c[i].id;
      GetFindsLine(c[1..], i - 1);
    }
  }

  /** Two carts with distinct keys, the same keys in the same order and the same entries are equal. */
  lemma SameEntriesSameCart(a: Cart, b: Cart)
    requires DistinctIds(a) && DistinctIds(b) && Ids(a) == Ids(b)
    requires forall k :: Get(a, k) == Get(b, k)
    ensures a == b
  {
    forall i | 0 <= i < |a|
      ensures a[i] == b[i]
    {
      assert a[i].id == Ids(a)[i] == Ids(b)[i] == b[i].id;
      GetFindsLine(a, i);
      GetFindsLine(b, i);
    }
  }

  /** `cart.get(id, {}).get('cantidad', 0)`: the quantity held, or 0 when absent. */
  function Quantity(c: Cart, id: ProductId): int
  {
    match Get(c, id)
    case Some(e) => e.qty
    case None => 0
  }

  /** Dictionary assignment `cart[id] = e`: replaces in place, or appends a new key. */
  function Put(c: Cart, id: ProductId, e: Entry): (r: Cart)
    ensures Get(r, id) == Some(e)
    ensures forall k | k != id :: Get(r, k) == Get(c, k)
  {
    if |c| == 0 then [Line(id, e)]
    else
      ConsUnfold(c[0], c[1..]);
      if c[0].id == id then
        ConsUnfold(Line(id, e), c[1..]);
        [Line(id, e)] + c[1..]
      else
        var t := Put(c[1..], id, e);
        ConsUnfold(c[0], t);
        [c[0]] + t
  }

  /**
   * Where `Put` leaves the key: an existing key keeps its position, a new
   * key goes to the end, and the keys stay distinct.
   */
  lemma PutKeys(c: Cart, id: ProductId, e: Entry)
    ensures id in Ids(c) ==> Ids(Put(c, id, e)) == Ids(c)
    ensures id !in Ids(c) ==> Put(c, id, e) == c + [Line(id, e)]
    ensures id !in Ids(c) ==> Ids(Put(c, id, e)) == Ids(c) + [id]
    ensures forall k :: k in Ids(Put(c, id, e)) <==> k in Ids(c) || k == id
    ensures DistinctIds(c) ==> DistinctIds(Put(c, id, e))
  {
    if id in Ids(c) {
      PutKeepsOrder(c, id, e);
    } else {
      PutAppends(c, id, e);
      IdsAppend(c, Line(id, e));
    }
    PutDistinct(c, id, e);
  }

  /** Assigning to an existing key leaves the keys as they were, in the same order. */
  lemma {:induction false} PutKeepsOrder(c: Cart, id: ProductId, e: Entry)
    requires id in Ids(c)
    ensures Ids(Put(c, id, e)) == Ids(c)
  {
    ConsUnfold(c[0], c[1..]);
    assert c == [c[0]] + c[1..];
    if c[0].id == id {
      ConsUnfold(Line(id, e), c[1..]);
    } else {
      PutKeepsOrder(c[1..], id, e);
      ConsUnfold(c[0], Put(c[1..], id, e));
    }
  }

  /** Assigning to a new key appends it. */
  lemma {:induction false} PutAppends(c: Cart, id: ProductId, e: Entry)
    requires id !in Ids(c)
    ensures Put(c, id, e) == c + [Line(id, e)]
  {
    if |c| > 0 {
      ConsUnfold(c[0], c[1..]);
      assert c == [c[0]] + c[1..];
      PutAppends(c[1..], id, e);
      assert c + [Line(id, e)] == [c[0]] + (c[1..] + [Line(id, e)]);
    }
  }

  /** The keys of a cart with a line appended are its keys followed by that line's key. */
  lemma IdsAppend(c: Cart, l: Line)
    ensures Ids(c + [l]) == Ids(c) + [l.id]
  {
    var a, b := Ids(c + [l]), Ids(c) + [l.id];
    assert |a| == |b|;
    forall i | 0 <= i < |a|
      ensures a[i] == b[i]
    {
      assert (c + [l])[i] == if i < |c| then c[i] else l;
    }
  }

  /** After `Put` the keys are the old ones and `id`, and distinct keys stay distinct. */
  lemma {:induction false} PutDistinct(c: Cart, id: ProductId, e: Entry)
    ensures forall k :: k in Ids(Put(c, id, e)) <==> k in Ids(c) || k == id
    ensures DistinctIds(c) ==> DistinctIds(Put(c, id, e))
  {
    if |c| > 0 {
      ConsUnfold(c[0], c[1..]);
      if c[0].id == id {
        ConsUnfold(Line(id, e), c[1..]);
      } else {
        PutDistinct(c[1..], id, e);
        ConsUnfold(c[0], Put(c[1..], id, e));
      }
    }
  }

  /** `del cart[id]`: drops the key and keeps every other line in order. */
  function Delete(c: Cart, id: ProductId): (r: Cart)
    ensures id !in Ids(r)
    ensures forall k | k != id :: Get(r, k) == Get(c, k)
    ensures id !in Ids(c) ==> r == c
    ensures forall k :: k in Ids(r) <==> k in Ids(c) && k != id
    ensures DistinctIds(c) ==> DistinctIds(r)
    ensures |r| <= |c|
  {
    if |c| == 0 then []
    else
      ConsUnfold(c[0], c[1..]);
      if c[0].id == id then Delete(c[1..], id)
      else
        var t := Delete(c[1..], id);
        ConsUnfold(c[0], t);
        [c[0]] + t
  }

  /**
   * In a cart with distinct keys, deleting the key of line `i` cuts out
   * exactly that line: the lines before and after it keep their order.
   */
  lemma {:induction false} DeleteDropsAt(c: Cart, id: ProductId, i: int)
    requires DistinctIds(c) && 0 <= i < |c| && c[i].id == id
    ensures Delete(c, id) == c[..i] + c[i + 1..]
  {
    var t := c[1..];
    if i == 0 {
      assert id !in Ids(t);
      assert c[..0] + t == t;
    } else {
      assert c[0].id != id by {
        assert Ids(t)[i - 1] == id;
      }
      DeleteDropsAt(t, id, i - 1);
      CutRegroup(c, i);
    }
  }

  /** Cutting line `i > 0` out of `c` is keeping `c[0]` and cutting line `i - 1` out of the rest. */
  lemma CutRegroup(c: Cart, i: int)
    requires 0 < i < |c|
    ensures c[..i] + c[i + 1..] == [c[0]] + (c[1..][..i - 1] + c[1..][i..])
  {
    assert c[1..][..i - 1] == c[1..i] && c[1..][i..] == c[i + 1..];
    assert c[..i] == [c[0]] + c[1..i];
  }

  /** How the dictionary view of a cart unfolds at its first line. */
  lemma ConsUnfold(l: Line, t: Cart)
    ensures ([l] + t)[1..] == t
    ensures Ids([l] + t) == [l.id] + Ids(t)
    ensures forall k :: Get([l] + t, k) == if l.id == k then Some(l.entry) else Get(t, k)
  {
    assert ([l] + t)[1..] == t;
  }

  /** Deleting the key of a line just appended to a cart without that key gives the cart back. */
  lemma {:induction false} DeleteAppended(c: Cart, l: Line)
    requires l.id !in Ids(c)
    ensures Delete(c + [l], l.id) == c
  {
    if |c| > 0 {
      assert (c + [l])[0] == c[0];
      assert (c + [l])[1..] == c[1..] + [l];
      DeleteAppended(c[1..], l);
      assert c == [c[0]] + c[1..];
    } else {
      assert c + [l] == [l];
      assert [l][1..] == [];
    }
  }

  /** What one line costs: unit price times quantity. */
  function LineTotal(l: Line): int
  {
    l.entry.priceCents * l.entry.qty
  }

  /** Sum of unit price times quantity over the cart. */
  function Subtotal(c: Cart): int
  {
    if |c| == 0 then 0 else LineTotal(c[0]) + Subtotal(c[1..])
  }
}

=== FILE: cart_views.dfy ===
/**
 * The cart views of the shop: adding a product, changing a quantity,
 * removing one product, emptying the cart, and the cart page, which
 * totals the cart and pulls every quantity down to the live stock.
 * Each is a function from the cart (and the product table it reads) to
 * the new cart and an outcome tag standing for the message it shows.
 */
module CartViews {
  import opened Basics
  import opened Catalog
  import opened Cart

  /** What adding to the cart reports. */
  datatype AddOutcome =
    | Added(units: int)                 // all requested units went in
    | Clamped(units: int, limit: int)   // only `units` more fit under the stock `limit`
    | AtLimit(limit: int)               // the cart already holds the stock or more; nothing added
    | NotListed                         // unknown or unpublished product (404)
    | MissingEntry                      // the clamp wrote to a key the cart lacks (KeyError)
    | NoImage                           // a new entry read the URL of a missing image (ValueError)

  /**
   * The quantity the add form asks for: a value below 1, or one that does
   * not parse (None), is read as 1.
   */
  function RequestedUnits(q: Option<int>): (n: int)
    ensures n >= 1
    ensures q.Some? && q.value >= 1 ==> n == q.value
    ensures n > 1 ==> q == Some(n)
  {
    match q
    case Some(v) => if v < 1 then 1 else v
    case None => 1
  }

  /**
   * The add view with the clamp branch parameterised: with `createOnClamp`
   * false it writes the clamped quantity through an existing key only, as
   * the view does; with it true it also creates a missing entry.
   */
  function AddWith(c: Cart, cat: Catalog, id: ProductId, q: Option<int>, createOnClamp: bool)
    : (r: Step<Cart, AddOutcome>)
    ensures DistinctIds(c) ==> DistinctIds(r.state)
    ensures id in Ids(c) ==> Ids(r.state) == Ids(c)
    ensures id !in Ids(c) ==>
      Ids(r.state) == if r.outcome.Added? || r.outcome.Clamped? then Ids(c) + [id] else Ids(c)
  {
    if !Listed(cat, id) then Step(c, NotListed)
    else
      var n := RequestedUnits(q);
      var p := cat[id];
      var current := Quantity(c, id);
      if current + n > p.stock then
        var allowed := p.stock - current;
        if allowed > 0 then
          match Get(c, id)
          case Some(e) =>
            PutKeys(c, id, e.(qty := p.stock));
            Step(Put(c, id, e.(qty := p.stock)), Clamped(allowed, p.stock))
          case None =>
            if !createOnClamp then Step(c, MissingEntry)
            else if !p.hasImage then Step(c, NoImage)
            else
              PutKeys(c, id, Entry(p.stock, p.priceCents, p.stock));
              Step(Put(c, id, Entry(p.stock, p.priceCents, p.stock)), Clamped(allowed, p.stock))
        else Step(c, AtLimit(p.stock))
      else
        match Get(c, id)
        case Some(e) =>
          PutKeys(c, id, e.(qty := e.qty + n));
          Step(Put(c, id, e.(qty := e.qty + n)), Added(n))
        case None =>
          if !p.hasImage then Step(c, NoImage)
          else
            PutKeys(c, id, Entry(n, p.priceCents, p.stock));
            Step(Put(c, id, Entry(n, p.priceCents, p.stock)), Added(n))
  }

  /**
   * add_to_cart as written. A listed product with room grows by exactly the
   * requested units, or is created with them, priced and stock-stamped from
   * the product row, at the end of the cart; creating the entry reads the
   * product's image URL, so a product without a cover image is the
   * ValueError outcome with the cart untouched. Past the stock an existing
   * entry is raised to exactly the stock; with no room left nothing
   * changes; and a missing entry that would need clamping is the KeyError
   * outcome with the cart untouched. No other key is ever touched and the
   * keys keep their order.
   */
  function AddToCart(c: Cart, cat: Catalog, id: ProductId, q: Option<int>): (r: Step<Cart, AddOutcome>)
    ensures forall k | k != id :: Get(r.state, k) == Get(c, k)
    ensures DistinctIds(c) ==> DistinctIds(r.state)
    ensures id in Ids(c) ==> Ids(r.state) == Ids(c)
    ensures id !in Ids(c) ==> Ids(r.state) == if r.outcome.Added? then Ids(c) + [id] else Ids(c)
    ensures !Listed(cat, id) ==> r == Step(c, NotListed)
    ensures Listed(cat, id) && Quantity(c, id) + RequestedUnits(q) <= cat[id].stock ==>
      if id !in Ids(c) && !cat[id].hasImage then r == Step(c, NoImage)
      else
        && r.outcome == Added(RequestedUnits(q))
        && Quantity(r.state, id) == Quantity(c, id) + RequestedUnits(q)
    ensures Listed(cat, id) && Quantity(c, id) + RequestedUnits(q) > cat[id].stock ==>
      if cat[id].stock - Quantity(c, id) <= 0 then r == Step(c, AtLimit(cat[id].stock))
      else if id in Ids(c) then
        && r.outcome == Clamped(cat[id].stock - Quantity(c, id), cat[id].stock)
        && Quantity(r.state, id) == cat[id].stock
      else r == Step(c, MissingEntry)
    ensures id in Ids(c) && Get(r.state, id).Some? ==>
      Get(r.state, id).value == Get(c, id).value.(qty := Quantity(r.state, id))
    ensures id !in Ids(c) && r.outcome.Added? ==>
      Get(r.state, id) == Some(Entry(RequestedUnits(q), cat[id].priceCents, cat[id].stock))
    ensures r.outcome.Added? || r.outcome.Clamped? ==>
      Listed(cat, id) && id in Ids(r.state) && Quantity(r.state, id) <= cat[id].stock
  {
    AddWith(c, cat, id, q, false)
  }

  /**
   * The add view with the clamp branch creating the missing entry: every
   * accepted add leaves the entry within stock, and an add to a cart without
   * the product never fails once the product is listed with stock and an
   * image.
   */
  function AddToCartCorrected(c: Cart, cat: Catalog, id: ProductId, q: Option<int>): (r: Step<Cart, AddOutcome>)
    ensures forall k | k != id :: Get(r.state, k) == Get(c, k)
    ensures id in Ids(c) ==> Ids(r.state) == Ids(c)
    ensures id !in Ids(c) ==>
      Ids(r.state) == if r.outcome.Added? || r.outcome.Clamped? then Ids(c) + [id] else Ids(c)
    ensures !r.outcome.MissingEntry?
    ensures Listed(cat, id) && id !in Ids(c) && cat[id].stock > 0 ==>
      if !cat[id].hasImage then r == Step(c, NoImage)
      else
        && Get(r.state, id).Some?
        && Quantity(r.state, id) == if RequestedUnits(q) <= cat[id].stock then RequestedUnits(q) else cat[id].stock
    ensures r.outcome.Added? || r.outcome.Clamped? ==>
      Listed(cat, id) && id in Ids(r.state) && Quantity(r.state, id) <= cat[id].stock
  {
    AddWith(c, cat, id, q, true)
  }

  /** Adding a product without a cover image to an empty cart crashes on its image URL. */
  lemma AddWithoutImageCrashes()
    ensures AddToCart([], map[7 := Product(1000, 3, true, false)], 7, Some(1)) == Step([], NoImage)
  {
  }

  /**
   * Adding more than the stock of a product to an empty cart: the view
   * crashes instead of creating a clamped entry.
   */
  lemma AddOverStockToEmptyCartCrashes()
    ensures AddToCart([], map[7 := Product(1000, 3, true, true)], 7, Some(5)) == Step([], MissingEntry)
    ensures AddToCartCorrected([], map[7 := Product(1000, 3, true, true)], 7, Some(5))
         == Step([Line(7, Entry(3, 1000, 3))], Clamped(3, 3))
  {
  }

  /**
   * Adding a product that was not in the cart and then removing it gives
   * back the cart as it was: the add only appended one line.
   */
  lemma AddThenRemove(c: Cart, cat: Catalog, id: ProductId, q: Option<int>)
    requires id !in Ids(c)
    ensures Delete(AddToCart(c, cat, id, q).state, id) == c
  {
    var r := AddToCart(c, cat, id, q);
    if r.state != c {
      assert Listed(cat, id);
      var e := Entry(RequestedUnits(q), cat[id].priceCents, cat[id].stock);
      PutKeys(c, id, e);
      DeleteAppended(c, Line(id, e));
    }
  }

  /** What updating a quantity reports. */
  datatype UpdateOutcome =
    | InvalidQuantity                  // the quantity did not parse
    | NotInCart                        // the product is not in the cart
    | UpdateNotListed                  // unknown or unpublished product (404)
    | Updated(qty: int, capped: bool)  // the entry now holds `qty`; `capped` when cut to stock
    | SoldOut(limit: int)              // cut to a stock of 0 or less: the entry is left as it was

  function Min(a: int, b: int): int { if a <= b then a else b }
  function Max(a: int, b: int): int { if a >= b then a else b }

  /**
   * update_cart_quantity. An unparsable quantity, a key not in the cart or
   * a product no longer listed changes nothing. Otherwise the entry's
   * quantity becomes min(max(q, 1), stock) and its stock stamp the live
   * stock, unless that minimum is not positive, in which case nothing
   * changes. No key is added, moved or removed, and no other entry changes.
   */
  function UpdateCartQuantity(c: Cart, cat: Catalog, id: ProductId, q: Option<int>)
    : (r: Step<Cart, UpdateOutcome>)
    ensures Ids(r.state) == Ids(c)
    ensures forall k | k != id :: Get(r.state, k) == Get(c, k)
    ensures DistinctIds(c) ==> DistinctIds(r.state)
    ensures !r.outcome.Updated? ==> r.state == c
    ensures q.None? ==> r.outcome == InvalidQuantity
    ensures q.Some? && id !in Ids(c) ==> r.outcome == NotInCart
    ensures q.Some? && id in Ids(c) && !Listed(cat, id) ==> r.outcome == UpdateNotListed
    ensures r.outcome.Updated? <==>
      q.Some? && id in Ids(c) && Listed(cat, id) && Min(Max(q.value, 1), cat[id].stock) > 0
    ensures r.outcome.Updated? ==>
      && r.outcome.qty == Min(Max(q.value, 1), cat[id].stock)
      && r.outcome.capped == (q.value > cat[id].stock)
      && Get(r.state, id) == Some(Get(c, id).value.(qty := r.outcome.qty, stockSnapshot := cat[id].stock))
      && 1 <= Quantity(r.state, id) <= cat[id].stock
  {
    match q
    case None => Step(c, InvalidQuantity)
    case Some(v) =>
      var n := if v < 1 then 1 else v;
      match Get(c, id)
      case None => Step(c, NotInCart)
      case Some(e) =>
        if !Listed(cat, id) then Step(c, UpdateNotListed)
        else
          var stock := cat[id].stock;
          var target := if n > stock then stock else n;
          if target > 0 then
            PutKeys(c, id, e.(qty := target, stockSnapshot := stock));
            Step(Put(c, id, e.(qty := target, stockSnapshot := stock)), Updated(target, n > stock))
          else Step(c, SoldOut(stock))
  }

  /**
   * Submitting the same quantity again changes nothing more: the entry
   * already holds min(max(q, 1), stock) and the live stock as its stamp.
   */
  lemma UpdateIdempotent(c: Cart, cat: Catalog, id: ProductId, q: Option<int>)
    requires DistinctIds(c)
    ensures var once := UpdateCartQuantity(c, cat, id, q).state;
      UpdateCartQuantity(once, cat, id, q).state == once
  {
    var once := UpdateCartQuantity(c, cat, id, q).state;
    var twice := UpdateCartQuantity(once, cat, id, q);
    if twice.outcome.Updated? {
      assert Get(twice.state, id) == Get(once, id);
      SameEntriesSameCart(twice.state, once);
    }
  }

  /**
   * remove_from_cart: the key is gone, every other entry is as it was and
   * keeps its place, and a key that was not there leaves the cart unchanged.
   */
  function RemoveFromCart(c: Cart, id: ProductId): (r: Cart)
    ensures id !in Ids(r)
    ensures forall k | k != id :: Get(r, k) == Get(c, k)
    ensures id !in Ids(c) ==> r == c
    ensures DistinctIds(c) ==> DistinctIds(r)
    ensures DistinctIds(c) ==> forall i | 0 <= i < |c| && c[i].id == id :: r == c[..i] + c[i + 1..]
  {
    assert DistinctIds(c) ==> forall i | 0 <= i < |c| && c[i].id == id :: Delete(c, id) == c[..i] + c[i + 1..] by {
      if DistinctIds(c) {
        forall i | 0 <= i < |c| && c[i].id == id
          ensures Delete(c, id) == c[..i] + c[i + 1..]
        {
          DeleteDropsAt(c, id, i);
        }
      }
    }
    Delete(c, id)
  }

  /** Removing the same product twice is the same as removing it once. */
  lemma RemoveIdempotent(c: Cart, id: ProductId)
    ensures RemoveFromCart(RemoveFromCart(c, id), id) == RemoveFromCart(c, id)
  {
  }

  /** clear_cart: the cart is emptied and the purchase code is kept. */
  function ClearCart(s: Session): (r: Session)
    ensures |r.cart| == 0 && Subtotal(r.cart) == 0
    ensures forall k :: Get(r.cart, k) == None
    ensures r.token == s.token
  {
    s.(cart := [])
  }

  /** One row of the cart page. */
  datatype CartItem = CartItem(
    id: ProductId,
    priceCents: int,
    qty: int,          // the quantity shown, after the cut to live stock
    totalCents: int,   // the row total shown
    maxStock: int,     // the live stock, 0 for a missing product
    adjusted: bool,    // the quantity was cut to live stock (warning)
    unavailable: bool) // the live stock is 0 (error message, row kept)

  /** The cart page: its rows and the subtotal shown under them. */
  datatype CartPage = CartPage(items: seq<CartItem>, subtotalCents: int)

  /** The line with its stored quantity cut down to the live stock when it exceeds it. */
  function ClampLine(l: Line, cat: Catalog): Line
  {
    if l.entry.qty > LiveStock(cat, l.id) then Line(l.id, l.entry.(qty := LiveStock(cat, l.id))) else l
  }

  /** The page row for a line; its total uses the cut quantity when `afterClamp` holds. */
  function RowFor(l: Line, cat: Catalog, afterClamp: bool): CartItem
  {
    var live := LiveStock(cat, l.id);
    var shown := ClampLine(l, cat);
    CartItem(l.id, l.entry.priceCents, shown.entry.qty, LineTotal(if afterClamp then shown else l),
             live, l.entry.qty > live, live == 0)
  }

  /**
   * The cart page walk, with the choice of which quantity the row totals
   * use: the stored one (`afterClamp` false) or the one cut to live stock.
   * Either way every line is cut down to the live stock, a missing product
   * counting as stock 0, and the lines keep their order; the subtotal is the
   * sum of the row totals.
   */
  function RenderCart(c: Cart, cat: Catalog, afterClamp: bool): (r: Step<Cart, CartPage>)
    ensures |r.state| == |c| && |r.outcome.items| == |c|
    ensures forall i | 0 <= i < |c| :: r.state[i] == ClampLine(c[i], cat)
    ensures forall i | 0 <= i < |c| :: r.outcome.items[i] == RowFor(c[i], cat, afterClamp)
    ensures r.outcome.subtotalCents == Subtotal(if afterClamp then r.state else c)
  {
    if |c| == 0 then Step([], CartPage([], 0))
    else
      var line := ClampLine(c[0], cat);
      var item := RowFor(c[0], cat, afterClamp);
      var rest := RenderCart(c[1..], cat, afterClamp);
      assert ([line] + rest.state)[1..] == rest.state;
      Step([line] + rest.state, CartPage([item] + rest.outcome.items, item.totalCents + rest.outcome.subtotalCents))
  }

  /**
   * carrito as written. Afterwards every stored quantity is at most the live
   * stock (0 for a missing product), entries already within stock are
   * unchanged, and only the quantity of an entry over stock changes, to the
   * live stock. The rows' totals and the subtotal use the quantities as they
   * were before the cut: the subtotal is the cart's subtotal on entry.
   */
  function ViewCart(c: Cart, cat: Catalog): (r: Step<Cart, CartPage>)
    ensures Ids(r.state) == Ids(c) && |r.outcome.items| == |c|
    ensures forall i | 0 <= i < |c| :: r.state[i].entry.qty <= LiveStock(cat, c[i].id)
    ensures forall i | 0 <= i < |c| :: c[i].entry.qty <= LiveStock(cat, c[i].id) ==> r.state[i] == c[i]
    ensures forall i | 0 <= i < |c| :: c[i].entry.qty > LiveStock(cat, c[i].id) ==>
      r.state[i].entry == c[i].entry.(qty := LiveStock(cat, c[i].id))
    ensures r.outcome.subtotalCents == Subtotal(c)
  {
    var r := RenderCart(c, cat, false);
    assert Ids(r.state) == Ids(c);
    r
  }

  /**
   * The rows of the cart page as written, one per cart line in cart order:
   * each names the line's product, its snapshot price and the live stock,
   * and shows the quantity left in the cart, the total of the quantity as
   * it was before the cut, a warning when the quantity was cut, and an
   * unavailable mark when the live stock is 0.
   */
  lemma ViewCartRows(c: Cart, cat: Catalog)
    ensures var r := ViewCart(c, cat);
      forall i | 0 <= i < |c| ::
        && r.outcome.items[i].id == c[i].id
        && r.outcome.items[i].priceCents == c[i].entry.priceCents
        && r.outcome.items[i].maxStock == LiveStock(cat, c[i].id)
        && r.outcome.items[i].qty == r.state[i].entry.qty
        && r.outcome.items[i].totalCents == c[i].entry.priceCents * c[i].entry.qty
        && r.outcome.items[i].adjusted == (c[i].entry.qty > LiveStock(cat, c[i].id))
        && r.outcome.items[i].unavailable == (LiveStock(cat, c[i].id) == 0)
  {
  }

  /** Viewing the cart a second time changes nothing more. */
  lemma ViewCartIdempotent(c: Cart, cat: Catalog)
    ensures ViewCart(ViewCart(c, cat).state, cat).state == ViewCart(c, cat).state
  {
    var once := ViewCart(c, cat).state;
    var twice := ViewCart(once, cat).state;
    assert Ids(once) == Ids(c) && Ids(twice) == Ids(once);
    forall i | 0 <= i < |once|
      ensures twice[i] == once[i]
    {
      assert once[i].id == c[i].id;
    }
  }

  /**
   * The cart page with row totals and subtotal taken from the quantities it
   * shows: the subtotal is the subtotal of the cart it leaves behind, so the
   * page adds up.
   */
  function ViewCartCorrected(c: Cart, cat: Catalog): (r: Step<Cart, CartPage>)
    ensures Ids(r.state) == Ids(c) && |r.outcome.items| == |c|
    ensures forall i | 0 <= i < |c| :: r.state[i].entry.qty <= LiveStock(cat, c[i].id)
    ensures forall i | 0 <= i < |c| ::
      r.outcome.items[i].totalCents == r.outcome.items[i].priceCents * r.outcome.items[i].qty
    ensures r.outcome.subtotalCents == Subtotal(r.state)
    ensures r.state == ViewCart(c, cat).state
  {
    var r := RenderCart(c, cat, true);
    assert Ids(r.state) == Ids(c);
    assert r.state == RenderCart(c, cat, false).state;
    r
  }

  /**
   * A cart holding 5 units of a product whose stock fell to 3: the page
   * shows 3 units but a subtotal for 5.
   */
  lemma ViewSubtotalCountsClampedUnits()
    ensures var r := ViewCart([Line(7, Entry(5, 1000, 5))], map[7 := Product(1000, 3, true, true)]);
      && r.state == [Line(7, Entry(3, 1000, 5))]
      && r.outcome.items[0].qty == 3
      && r.outcome.subtotalCents == 5000
      && Subtotal(r.state) == 3000
  {
  }
}

=== FILE: catalog.dfy ===
/** The product table (`Producto`) as the cart and checkout views see it. */
module Catalog {

  /** Primary key of a product row. */
  type ProductId = int

  /**
   * A product row reduced to what the cart and order flow read and write:
   * the unit price in cents (the model field has two decimal places),
   * the quantity on hand, whether it is published (its completion
   * timestamp is set, which is what makes it visible in the shop), and
   * whether it has a cover image (the image field may be left empty).
   */
  datatype Product = Product(priceCents: int, stock: int, published: bool, hasImage: bool)

  /** All product rows by primary key; a missing key is a deleted or unknown product. */
  type Catalog = map<ProductId, Product>

  /** A product the shop offers for sale: it exists and it is published. */
  predicate Listed(cat: Catalog, id: ProductId)
  {
    id in cat && cat[id].published
  }

  /** Stock as the cart page reads it: a product missing from the table counts as 0. */
  function LiveStock(cat: Catalog, id: ProductId): int
  {
    if id in cat then cat[id].stock else 0
  }

  /** Every product's quantity on hand is non-negative. */
  predicate NonNegativeStock(cat: Catalog)
  {
    forall id | id in cat :: cat[id].stock >= 0
  }
}

=== FILE: checkout.dfy ===
/**
 * compra_productos: the payment page and the order it places. A non-empty
 * cart gets a purchase code (kept in the session until an order is placed);
 * a submission must echo that code and carry a proof-of-payment image; then,
 * as one transaction, every cart line is checked against live stock and
 * taken off it, and one pending order is written with a line per entry.
 */
module Purchase {
  import opened Basics
  import opened Catalog
  import opened Cart
  import opened Orders
  import opened Text

  /** A GET shows the payment form; a POST submits the typed code and maybe an image. */
  datatype Request = ShowForm | Submit(confirmation: Option<string>, hasProof: bool)

  /** What the checkout view reports. */
  datatype CheckoutOutcome =
    | EmptyCart                               // nothing to pay for
    | PaymentForm(code: string)               // the form, showing the purchase code
    | CodeMismatch                            // the typed code is not the session's
    | MissingProof                            // no proof-of-payment image attached
    | StorageFailure                          // the order row or the image could not be saved
    | ProductGone(id: ProductId)              // a cart product no longer exists
    | OutOfStock(id: ProductId, remaining: int)  // a cart product has too little stock
    | Placed(order: nat)                      // the order was written at this index

  /** The view's result: the session and store it leaves, and its outcome. */
  datatype CheckoutResult = CheckoutResult(session: Session, store: Store, outcome: CheckoutOutcome)

  /** The stock loop's result: the decremented table with the lines and total, or the first failure. */
  datatype Reservation =
    | Reserved(catalog: Catalog, items: seq<LineItem>, totalCents: int)
    | Gone(id: ProductId)
    | Short(id: ProductId, remaining: int)

  /** Every cart product exists and has at least the quantity the cart holds. */
  predicate Available(cat: Catalog, c: Cart)
  {
    forall i | 0 <= i < |c| :: c[i].id in cat && c[i].entry.qty <= cat[c[i].id].stock
  }

  /** The order line the loop writes for a cart line. */
  function ItemFor(l: Line): LineItem
  {
    LineItem(Some(l.id), l.entry.qty, l.entry.priceCents)
  }

  /** The product table after a line's quantity is taken off its product's stock. */
  function Take(cat: Catalog, l: Line): Catalog
    requires l.id in cat
  {
    cat[l.id := cat[l.id].(stock := cat[l.id].stock - l.entry.qty)]
  }

  /**
   * The loop of the transaction, in cart order: each product is read, a
   * missing one or one with less stock than the cart holds stops the walk,
   * otherwise its stock drops by the cart quantity and a line is written.
   * On success there is one line per cart entry, in order, and the total is
   * the cart's subtotal and the lines' total; a failure names a cart product.
   */
  function Reserve(cat: Catalog, c: Cart): (r: Reservation)
    ensures r.Reserved? ==> r.catalog.Keys == cat.Keys
    ensures r.Gone? ==> r.id in Ids(c)
    ensures r.Short? ==> r.id in Ids(c)
  {
    if |c| == 0 then Reserved(cat, [], 0)
    else
      var l := c[0];
      if l.id !in cat then Gone(l.id)
      else if cat[l.id].stock < l.entry.qty then Short(l.id, cat[l.id].stock)
      else
        var after := Take(cat, l);
        match Reserve(after, c[1..])
        case Reserved(cat', items, total) =>
          Reserved(cat', [ItemFor(l)] + items, LineTotal(l) + total)
        case Gone(id) => Gone(id)
        case Short(id, remaining) => Short(id, remaining)
  }

  /**
   * A successful loop writes one line per cart entry, in cart order, each
   * with the entry's quantity and snapshotted price, and its total is both
   * the cart's subtotal and the total of the lines it wrote.
   */
  lemma {:induction false} ReserveWritesCartLines(cat: Catalog, c: Cart)
    requires Reserve(cat, c).Reserved?
    ensures |Reserve(cat, c).items| == |c|
    ensures forall i | 0 <= i < |c| :: Reserve(cat, c).items[i] == ItemFor(c[i])
    ensures Reserve(cat, c).totalCents == Subtotal(c) == ItemsTotal(Reserve(cat, c).items)
  {
    if |c| > 0 {
      var l, t := c[0], c[1..];
      var after := Take(cat, l);
      ReserveWritesCartLines(after, t);
      var items := Reserve(after, t).items;
      assert Reserve(cat, c).items == [ItemFor(l)] + items;
      assert ([ItemFor(l)] + items)[1..] == items;
    }
  }

  /**
   * Availability of a cart is availability of its first line and of the
   * rest; taking the first line's stock does not change the rest's when the
   * rest does not hold that product.
   */
  lemma AvailableSplit(cat: Catalog, c: Cart)
    requires |c| > 0 && c[0].id !in Ids(c[1..])
    ensures Available(cat, c) <==>
      c[0].id in cat && c[0].entry.qty <= cat[c[0].id].stock && Available(cat, c[1..])
    ensures c[0].id in cat ==> (Available(Take(cat, c[0]), c[1..]) <==> Available(cat, c[1..]))
  {
    var t := c[1..];
    forall i | 0 <= i < |t|
      ensures t[i].id != c[0].id && t[i] == c[i + 1]
    {
      assert Ids(t)[i] == t[i].id;
    }
  }

  /** For a cart with distinct keys the loop succeeds exactly when every product is available. */
  lemma {:induction false} ReserveSucceedsIffAvailable(cat: Catalog, c: Cart)
    requires DistinctIds(c)
    ensures Reserve(cat, c).Reserved? <==> Available(cat, c)
  {
    if |c| > 0 {
      var l, t := c[0], c[1..];
      AvailableSplit(cat, c);
      if l.id in cat && cat[l.id].stock >= l.entry.qty {
        ReserveSucceedsIffAvailable(Take(cat, l), t);
        assert Reserve(cat, c).Reserved? <==> Reserve(Take(cat, l), t).Reserved?;
      }
    }
  }

  /**
   * After a successful loop over a cart with distinct keys, every product is
   * as it was except that its stock is down by the quantity the cart holds
   * of it.
   */
  lemma {:induction false} ReserveTakesCartQuantities(cat: Catalog, c: Cart)
    requires DistinctIds(c) && Reserve(cat, c).Reserved?
    ensures forall p | p in cat :: Reserve(cat, c).catalog[p] == cat[p].(stock := cat[p].stock - Quantity(c, p))
  {
    if |c| > 0 {
      var l, t := c[0], c[1..];
      var after := Take(cat, l);
      assert Reserve(cat, c).catalog == Reserve(after, t).catalog;
      ReserveTakesCartQuantities(after, t);
      forall p | p in cat
        ensures Reserve(cat, c).catalog[p] == cat[p].(stock := cat[p].stock - Quantity(c, p))
      {
        if p == l.id {
          assert Quantity(t, p) == 0;
        } else {
          assert Quantity(c, p) == Quantity(t, p);
        }
      }
    }
  }

  /** After a successful loop no stock it touched is negative. */
  lemma ReserveLeavesStockNonNegative(cat: Catalog, c: Cart)
    requires DistinctIds(c) && Reserve(cat, c).Reserved?
    ensures forall i | 0 <= i < |c| ::
      c[i].id in Reserve(cat, c).catalog && Reserve(cat, c).catalog[c[i].id].stock >= 0
  {
    ReserveSucceedsIffAvailable(cat, c);
    ReserveTakesCartQuantities(cat, c);
    forall i | 0 <= i < |c|
      ensures Quantity(c, c[i].id) == c[i].entry.qty
    {
      GetFindsLine(c, i);
    }
  }

  /**
   * A failed loop over a cart with distinct keys names a product that is
   * missing, or one whose stock, reported as it stands, is below the
   * quantity the cart holds.
   */
  lemma {:induction false} ReserveFailureNamesCulprit(cat: Catalog, c: Cart)
    requires DistinctIds(c)
    ensures Reserve(cat, c).Gone? ==> Reserve(cat, c).id !in cat
    ensures Reserve(cat, c).Short? ==>
      && Reserve(cat, c).id in cat
      && Reserve(cat, c).remaining == cat[Reserve(cat, c).id].stock < Quantity(c, Reserve(cat, c).id)
  {
    if |c| > 0 {
      var l, t := c[0], c[1..];
      ConsUnfold(l, t);
      if l.id in cat && cat[l.id].stock >= l.entry.qty {
        var after := Take(cat, l);
        ReserveFailureNamesCulprit(after, t);
        var r := Reserve(cat, c);
        if r.Short? || r.Gone? {
          assert r.id in Ids(t);
          assert Quantity(c, r.id) == Quantity(t, r.id);
        }
      }
    }
  }

  /** The facts about the stock loop for a cart whose keys are distinct. */
  lemma ReserveForDistinctCart(cat: Catalog, c: Cart)
    ensures DistinctIds(c) && Reserve(cat, c).Gone? ==> Reserve(cat, c).id !in cat
    ensures DistinctIds(c) && Reserve(cat, c).Short? ==>
      && Reserve(cat, c).id in cat
      && Reserve(cat, c).remaining == cat[Reserve(cat, c).id].stock < Quantity(c, Reserve(cat, c).id)
    ensures DistinctIds(c) ==> (Reserve(cat, c).Reserved? <==> Available(cat, c))
    ensures DistinctIds(c) && Reserve(cat, c).Reserved? ==>
      && (forall p | p in cat :: Reserve(cat, c).catalog[p] == cat[p].(stock := cat[p].stock - Quantity(c, p)))
      && (forall i | 0 <= i < |c| :: c[i].id in Reserve(cat, c).catalog && Reserve(cat, c).catalog[c[i].id].stock >= 0)
  {
    if DistinctIds(c) {
      ReserveFailureNamesCulprit(cat, c);
      ReserveSucceedsIffAvailable(cat, c);
      if Reserve(cat, c).Reserved? {
        ReserveTakesCartQuantities(cat, c);
        ReserveLeavesStockNonNegative(cat, c);
      }
    }
  }

  /** The purchase code: the one the session holds, or the new one when it holds none. */
  function IssuedCode(s: Session, newCode: string): string
  {
    match s.token
    case Some(code) => code
    case None => newCode
  }

  /** `str(value)` of the submitted field: a missing field reads as "None". */
  function SubmittedText(x: Option<string>): string
  {
    match x
    case Some(v) => v
    case None => "None"
  }

  /** The submission echoes the purchase code once surrounding white space is stripped. */
  predicate Confirms(req: Request, code: string)
  {
    req.Submit? && Strip(SubmittedText(req.confirmation)) == code
  }

  /** The order a checkout of cart `c` under purchase code `code` writes. */
  predicate IsOrderFor(o: Order, c: Cart, code: string)
  {
    && o.code == code
    && o.status == Pendiente
    && |o.items| == |c|
    && (forall i | 0 <= i < |c| :: o.items[i] == ItemFor(c[i]))
    && o.subtotalCents == Subtotal(c)
    && Balanced(o)
  }

  /**
   * The transaction of a confirmed submission: create the pending order,
   * run the stock loop over the cart, and write the total. On success the
   * order table gains exactly one pending order for the cart at the next
   * index; on any failure the store is exactly as it was. For a cart
   * with distinct keys it succeeds exactly when every product is
   * available, and then each product's stock drops by exactly the cart's
   * quantity of it, so no stock it touches goes negative; a failure names
   * a missing product, or one whose remaining stock is below the cart's
   * quantity.
   */
  function Commit(st: Store, c: Cart, code: string): (r: Step<Store, CheckoutOutcome>)
    ensures r.outcome.Placed? || r.outcome.ProductGone? || r.outcome.OutOfStock?
    ensures !r.outcome.Placed? ==> r.state == st
    ensures r.outcome.Placed? ==>
      && r.outcome.order == |st.orders|
      && |r.state.orders| == |st.orders| + 1
      && r.state.orders[..|st.orders|] == st.orders
      && IsOrderFor(r.state.orders[|st.orders|], c, code)
      && r.state.catalog.Keys == st.catalog.Keys
    ensures DistinctIds(c) ==> (r.outcome.Placed? <==> Available(st.catalog, c))
    ensures DistinctIds(c) && r.outcome.Placed? ==>
      && (forall p | p in st.catalog ::
            r.state.catalog[p] == st.catalog[p].(stock := st.catalog[p].stock - Quantity(c, p)))
      && (forall i | 0 <= i < |c| :: r.state.catalog[c[i].id].stock >= 0)
    ensures DistinctIds(c) && r.outcome.ProductGone? ==> r.outcome.id in Ids(c) && r.outcome.id !in st.catalog
    ensures DistinctIds(c) && r.outcome.OutOfStock? ==>
      && r.outcome.id in st.catalog
      && r.outcome.remaining == st.catalog[r.outcome.id].stock < Quantity(c, r.outcome.id)
    ensures AllBalanced(st.orders) ==> AllBalanced(r.state.orders)
  {
    var res := Reserve(st.catalog, c);
    ReserveForDistinctCart(st.catalog, c);
    match res
    case Gone(id) => Step(st, ProductGone(id))
    case Short(id, remaining) => Step(st, OutOfStock(id, remaining))
    case Reserved(cat, items, total) =>
      ReserveWritesCartLines(st.catalog, c);
      var orders := st.orders + [Order(code, total, Pendiente, items)];
      assert orders[..|st.orders|] == st.orders;
      assert forall i | 0 <= i < |st.orders| :: orders[i] == st.orders[i];
      Step(Store(cat, orders), Placed(|st.orders|))
  }

  /**
   * compra_productos. `newCode` stands for the newly generated purchase
   * code and `storageFault` for a failure to save the order row (a
   * duplicate code) or the proof image. An empty cart changes nothing. A
   * non-empty cart gets a purchase code only if it has none, and keeps it
   * until an order is placed. A submission with the wrong code, without an
   * image, or that fails inside the transaction leaves the stock, the
   * orders and the cart as they were. A placed order empties the cart and
   * drops the code.
   */
  function Checkout(s: Session, st: Store, req: Request, newCode: string, storageFault: bool): (r: CheckoutResult)
    ensures |s.cart| == 0 ==> r == CheckoutResult(s, st, EmptyCart)
    ensures !r.outcome.Placed? ==> r.store == st && r.session.cart == s.cart
    ensures !r.outcome.Placed? && |s.cart| > 0 ==> r.session.token == Some(IssuedCode(s, newCode))
    ensures !r.outcome.Placed? && s.token.Some? ==> r.session.token == s.token
    ensures req.ShowForm? && |s.cart| > 0 ==> r.outcome == PaymentForm(IssuedCode(s, newCode))
    ensures req.Submit? && |s.cart| > 0 && !Confirms(req, IssuedCode(s, newCode)) ==> r.outcome == CodeMismatch
    ensures r.outcome.Placed? ==>
      && |s.cart| > 0 && Confirms(req, IssuedCode(s, newCode)) && req.hasProof && !storageFault
      && r.session == Session([], None)
    ensures |s.cart| > 0 && Confirms(req, IssuedCode(s, newCode)) && req.hasProof && !storageFault ==>
      Step(r.store, r.outcome) == Commit(st, s.cart, IssuedCode(s, newCode))
    ensures AllBalanced(st.orders) ==> AllBalanced(r.store.orders)
  {
    if |s.cart| == 0 then CheckoutResult(s, st, EmptyCart)
    else
      var code := IssuedCode(s, newCode);
      var kept := s.(token := Some(code));
      match req
      case ShowForm => CheckoutResult(kept, st, PaymentForm(code))
      case Submit(_, hasProof) =>
        if !Confirms(req, code) then CheckoutResult(kept, st, CodeMismatch)
        else if !hasProof then CheckoutResult(kept, st, MissingProof)
        else if storageFault then CheckoutResult(kept, st, StorageFailure)
        else
          var done := Commit(st, s.cart, code);
          if done.outcome.Placed? then CheckoutResult(Session([], None), done.state, done.outcome)
          else CheckoutResult(kept, st, done.outcome)
  }

  /**
   * `after` is `before` with one pending order for cart `c` under `code`
   * appended, and each product's stock lowered by exactly the cart's
   * quantity of it, never below zero for a product in the cart.
   */
  predicate TakesCart(before: Store, after: Store, c: Cart, code: string)
  {
    && |after.orders| == |before.orders| + 1
    && after.orders[..|before.orders|] == before.orders
    && IsOrderFor(after.orders[|before.orders|], c, code)
    && after.catalog.Keys == before.catalog.Keys
    && (forall p | p in before.catalog ::
          after.catalog[p] == before.catalog[p].(stock := before.catalog[p].stock - Quantity(c, p)))
    && (forall i | 0 <= i < |c| :: c[i].id in after.catalog && after.catalog[c[i].id].stock >= 0)
  }

  /**
   * The all-or-nothing property of a checkout of a cart with distinct keys: it places
   * an order exactly when the cart is non-empty, the code and image are
   * right, nothing fails to save, and every product has the stock the cart
   * asks for; then one pending order for the cart is added and each
   * product's stock drops by exactly the cart's quantity of it, never below
   * zero. Otherwise no stock and no order changes.
   */
  lemma CheckoutAllOrNothing(s: Session, st: Store, req: Request, newCode: string, storageFault: bool)
    requires DistinctIds(s.cart)
    ensures var r := Checkout(s, st, req, newCode, storageFault);
      && (r.outcome.Placed? <==>
           && |s.cart| > 0 && Confirms(req, IssuedCode(s, newCode)) && req.hasProof && !storageFault
           && Available(st.catalog, s.cart))
      && (r.outcome.Placed? ==> TakesCart(st, r.store, s.cart, IssuedCode(s, newCode)))
      && (!r.outcome.Placed? ==> r.store == st)
  {
    var r := Checkout(s, st, req, newCode, storageFault);
    var code := IssuedCode(s, newCode);
    if |s.cart| > 0 && Confirms(req, code) && req.hasProof && !storageFault {
      CommitTakesCart(st, s.cart, code);
      assert Step(r.store, r.outcome) == Commit(st, s.cart, code);
    } else {
      assert !r.outcome.Placed? && r.store == st;
    }
  }

  /** A transaction over a cart with distinct keys succeeds exactly when it is available, and then takes the cart. */
  lemma CommitTakesCart(st: Store, c: Cart, code: string)
    requires DistinctIds(c)
    ensures var d := Commit(st, c, code);
      && (d.outcome.Placed? <==> Available(st.catalog, c))
      && (d.outcome.Placed? ==> TakesCart(st, d.state, c, code))
  {
    var d := Commit(st, c, code);
    if d.outcome.Placed? {
      forall i | 0 <= i < |c|
        ensures c[i].id in d.state.catalog
      {
        assert c[i].id in st.catalog;
      }
    }
  }

  /** A checkout of a cart with distinct keys never drives a product's stock below zero. */
  lemma CheckoutKeepsStockNonNegative(s: Session, st: Store, req: Request, newCode: string, storageFault: bool)
    requires DistinctIds(s.cart) && NonNegativeStock(st.catalog)
    ensures NonNegativeStock(Checkout(s, st, req, newCode, storageFault).store.catalog)
  {
    var r := Checkout(s, st, req, newCode, storageFault);
    CheckoutAllOrNothing(s, st, req, newCode, storageFault);
    if r.outcome.Placed? {
      assert TakesCart(st, r.store, s.cart, IssuedCode(s, newCode));
      forall p | p in r.store.catalog
        ensures r.store.catalog[p].stock >= 0
      {
        if p in Ids(s.cart) {
          var i :| 0 <= i < |s.cart| && Ids(s.cart)[i] == p;
          assert s.cart[i].id == p;
        } else {
          assert Quantity(s.cart, p) == 0;
        }
      }
    }
  }

  /** The shape of a generated purchase code: eight upper-case hexadecimal digits. */
  predicate GeneratedShape(code: string)
  {
    |code| == 8 && forall i | 0 <= i < 8 :: '0' <= code[i] <= '9' || 'A' <= code[i] <= 'F'
  }

  /**
   * A generated code typed back with white space around it is accepted:
   * the submitted text is stripped before it is compared.
   */
  lemma PaddedCodeConfirms(code: string, pre: string, post: string, hasProof: bool)
    requires GeneratedShape(code) && AllSpace(pre) && AllSpace(post)
    ensures Confirms(Submit(Some(pre + code + post), hasProof), code)
  {
    StripPadded(pre, code, post);
  }
}

=== FILE: orders.dfy ===
/**
 * Purchase orders (`OrdenDeCompra`) and their line items (`ItemOrden`), with
 * the fields the checkout and review views write: the purchase code, the
 * subtotal, the status, and per item a nullable product reference plus the
 * quantity and unit price captured at purchase time.
 */
module Orders {
  import opened Basics
  import opened Catalog

  /** `estado`: an order is pending until a manager approves or rejects it. */
  datatype Status = Pendiente | Aprobada | Rechazada

  /**
   * An order line: the product it came from (None once the reference is
   * null), and the quantity and unit price in cents copied at purchase time.
   */
  datatype LineItem = LineItem(product: Option<ProductId>, qty: int, unitPriceCents: int)

  /** An order: purchase code, subtotal in cents, status and lines. */
  datatype Order = Order(code: string, subtotalCents: int, status: Status, items: seq<LineItem>)

  /** The product table and the order table, the durable state of the shop. */
  datatype Store = Store(catalog: Catalog, orders: seq<Order>)

  function ItemTotal(it: LineItem): int
  {
    it.unitPriceCents * it.qty
  }

  /** Sum of unit price times quantity over the lines, from their snapshots alone. */
  function ItemsTotal(items: seq<LineItem>): int
  {
    if |items| == 0 then 0 else ItemTotal(items[0]) + ItemsTotal(items[1..])
  }

  /** The recorded subtotal is the total of the order's lines. */
  predicate Balanced(o: Order)
  {
    o.subtotalCents == ItemsTotal(o.items)
  }

  /** Every order in the table is balanced. */
  predicate AllBalanced(orders: seq<Order>)
  {
    forall i | 0 <= i < |orders| :: Balanced(orders[i])
  }

  /** How many units the lines hold of product `p`: what a rejection gives back to it. */
  function Returned(items: seq<LineItem>, p: ProductId): int
  {
    if |items| == 0 then 0
    else (if items[0].product == Some(p) then items[0].qty else 0) + Returned(items[1..], p)
  }
}

=== FILE: review.dfy ===
/**
 * The manager's review of a purchase order: orden_aprobar and
 * orden_rechazar. A pending order can be approved, or rejected, which
 * gives its units back to stock in the same transaction; an order in any
 * other state is left alone.
 */
module Review {
  import opened Basics
  import opened Catalog
  import opened Orders

  /** What a review view reports. */
  datatype ReviewOutcome =
    | Approved
    | Rejected                    // status changed and stock given back
    | OrderNotFound               // no order with that key (404)
    | NotPending(current: Status) // already approved or rejected: nothing changes
    | RestockFailed               // a line's product is gone: the transaction rolled back

  /** The order key names an order. */
  predicate Exists(st: Store, oid: int)
  {
    0 <= oid < |st.orders|
  }

  /** The order key names an order that is still pending. */
  predicate IsPending(st: Store, oid: int)
  {
    Exists(st, oid) && st.orders[oid].status == Pendiente
  }

  /** Every line refers to a product that is still in the table. */
  predicate Restockable(cat: Catalog, items: seq<LineItem>)
  {
    forall i | 0 <= i < |items| :: items[i].product.Some? && items[i].product.value in cat
  }

  /**
   * orden_aprobar: a pending order becomes approved and nothing else in
   * the store changes; any other order, or a missing one, changes nothing.
   * Stock is never touched.
   */
  function Approve(st: Store, oid: int): (r: Step<Store, ReviewOutcome>)
    ensures r.state.catalog == st.catalog
    ensures |r.state.orders| == |st.orders|
    ensures !Exists(st, oid) ==> r == Step(st, OrderNotFound)
    ensures Exists(st, oid) && !IsPending(st, oid) ==> r == Step(st, NotPending(st.orders[oid].status))
    ensures IsPending(st, oid) ==>
      && r.outcome == Approved
      && r.state.orders[oid] == st.orders[oid].(status := Aprobada)
      && forall j | 0 <= j < |st.orders| && j != oid :: r.state.orders[j] == st.orders[j]
    ensures AllBalanced(st.orders) ==> AllBalanced(r.state.orders)
  {
    if !Exists(st, oid) then Step(st, OrderNotFound)
    else
      var o := st.orders[oid];
      if o.status == Pendiente then Step(st.(orders := st.orders[oid := o.(status := Aprobada)]), Approved)
      else Step(st, NotPending(o.status))
  }

  /**
   * The restocking loop of a rejection, in line order: each line's product
   * gets the line's quantity back. It succeeds exactly when every line's
   * product is still there, and then every product's stock has grown by the
   * units the lines hold of it, and nothing else has changed.
   */
  function Restock(cat: Catalog, items: seq<LineItem>): (r: Option<Catalog>)
    ensures r.Some? <==> Restockable(cat, items)
    ensures r.Some? ==> r.value.Keys == cat.Keys
    ensures r.Some? ==> forall p | p in cat :: r.value[p] == cat[p].(stock := cat[p].stock + Returned(items, p))
  {
    if |items| == 0 then Some(cat)
    else
      var it := items[0];
      match it.product
      case None => None
      case Some(p) =>
        if p !in cat then None
        else
          var cat' := cat[p := cat[p].(stock := cat[p].stock + it.qty)];
          assert Restockable(cat, items) <==> Restockable(cat', items[1..]) by {
            forall i | 0 <= i < |items[1..]|
              ensures items[1..][i] == items[i + 1]
            {
            }
          }
          Restock(cat', items[1..])
  }

  /**
   * orden_rechazar. A pending order whose products all still exist becomes
   * rejected, and every product gets back the units the order's lines hold
   * of it, in one step. If a line's product is gone the transaction rolls
   * back and nothing changes; an order that is not pending, or a missing
   * one, changes nothing either.
   */
  function Reject(st: Store, oid: int): (r: Step<Store, ReviewOutcome>)
    ensures |r.state.orders| == |st.orders|
    ensures !Exists(st, oid) ==> r == Step(st, OrderNotFound)
    ensures Exists(st, oid) && !IsPending(st, oid) ==> r == Step(st, NotPending(st.orders[oid].status))
    ensures IsPending(st, oid) && !Restockable(st.catalog, st.orders[oid].items) ==> r == Step(st, RestockFailed)
    ensures IsPending(st, oid) && Restockable(st.catalog, st.orders[oid].items) ==>
      && r.outcome == Rejected
      && r.state.orders[oid] == st.orders[oid].(status := Rechazada)
      && (forall j | 0 <= j < |st.orders| && j != oid :: r.state.orders[j] == st.orders[j])
      && r.state.catalog.Keys == st.catalog.Keys
      && forall p | p in st.catalog ::
           r.state.catalog[p] == st.catalog[p].(stock := st.catalog[p].stock + Returned(st.orders[oid].items, p))
    ensures r.outcome != Rejected ==> r.state == st
    ensures AllBalanced(st.orders) ==> AllBalanced(r.state.orders)
  {
    if !Exists(st, oid) then Step(st, OrderNotFound)
    else
      var o := st.orders[oid];
      if o.status != Pendiente then Step(st, NotPending(o.status))
      else
        match Restock(st.catalog, o.items)
        case None => Step(st, RestockFailed)
        case Some(cat) => Step(Store(cat, st.orders[oid := o.(status := Rechazada)]), Rejected)
  }

  /** Approving twice is approving once: the second call reports the order is no longer pending. */
  lemma ApproveTwice(st: Store, oid: int)
    requires IsPending(st, oid)
    ensures Approve(Approve(st, oid).state, oid) == Step(Approve(st, oid).state, NotPending(Aprobada))
  {
  }

  /** Rejecting twice is rejecting once: the second call gives back no more stock. */
  lemma RejectTwice(st: Store, oid: int)
    requires Exists(st, oid)
    ensures Reject(Reject(st, oid).state, oid).state == Reject(st, oid).state
  {
  }

  /** No review leaves a decided order: approved and rejected orders are final. */
  lemma DecidedOrdersAreFinal(st: Store, oid: int)
    requires Exists(st, oid) && st.orders[oid].status != Pendiente
    ensures Approve(st, oid).state == st && Reject(st, oid).state == st
  {
  }

  /**
   * Rejecting a pending order with lines A x2 and B x1 raises A's stock by 2
   * and B's by 1 and marks it rejected; rejecting it again changes nothing.
   */
  lemma RejectTwoProducts()
    ensures var st := Store(map[1 := Product(500, 10, true, true), 2 := Product(250, 4, true, true)],
                            [Order("AB12CD34", 1250, Pendiente,
                                   [LineItem(Some(1), 2, 500), LineItem(Some(2), 1, 250)])]);
      var r := Reject(st, 0);
      && r.outcome == Rejected
      && r.state.catalog == map[1 := Product(500, 12, true, true), 2 := Product(250, 5, true, true)]
      && r.state.orders[0].status == Rechazada
      && Reject(r.state, 0) == Step(r.state, NotPending(Rechazada))
  {
    var st := Store(map[1 := Product(500, 10, true, true), 2 := Product(250, 4, true, true)],
                    [Order("AB12CD34", 1250, Pendiente,
                           [LineItem(Some(1), 2, 500), LineItem(Some(2), 1, 250)])]);
    var items := st.orders[0].items;
    assert Returned(items, 1) == 2 && Returned(items, 2) == 1;
    assert Restockable(st.catalog, items);
  }
}

=== FILE: scenarios.dfy ===
/**
 * Properties that span several views: rejecting an order undoes the
 * checkout that placed it, checkouts run one after another never sell more
 * than the stock, two buyers cannot both take the last unit, and a cleared
 * cart buys nothing.
 */
module Scenarios {
  import opened Basics
  import opened Catalog
  import opened Cart
  import opened Orders
  import opened Purchase
  import opened Text
  import opened Review
  import opened CartViews

  /** The lines a checkout writes hold, per product, exactly the cart's quantity of it. */
  lemma {:induction false} ReturnedIsCartQuantity(c: Cart, items: seq<LineItem>, p: ProductId)
    requires DistinctIds(c)
    requires |items| == |c| && forall i | 0 <= i < |c| :: items[i] == ItemFor(c[i])
    ensures Returned(items, p) == Quantity(c, p)
  {
    if |c| > 0 {
      var t := c[1..];
      assert forall i | 0 <= i < |t| :: items[1..][i] == ItemFor(t[i]) by {
        forall i | 0 <= i < |t|
          ensures items[1..][i] == ItemFor(t[i])
        {
          assert items[1..][i] == items[i + 1] && t[i] == c[i + 1];
        }
      }
      ReturnedIsCartQuantity(t, items[1..], p);
      if c[0].id == p {
        assert Quantity(t, p) == 0;
      }
    }
  }

  /**
   * Rejecting an order for cart `c` appended after the orders of `st`, to a
   * table whose stock is `st`'s less the cart's quantities, brings back
   * `st`'s table and marks the order rejected.
   */
  lemma RejectAppended(st: Store, c: Cart, code: string, cat: Catalog, o: Order)
    requires DistinctIds(c) && Available(st.catalog, c)
    requires IsOrderFor(o, c, code)
    requires cat.Keys == st.catalog.Keys
    requires forall p | p in st.catalog :: cat[p] == st.catalog[p].(stock := st.catalog[p].stock - Quantity(c, p))
    ensures var r := Reject(Store(cat, st.orders + [o]), |st.orders|);
      && r.outcome == Rejected
      && r.state.catalog == st.catalog
      && r.state.orders == st.orders + [o.(status := Rechazada)]
  {
    var placed := Store(cat, st.orders + [o]);
    var k := |st.orders|;
    assert placed.orders[k] == o;
    assert Restockable(cat, o.items) by {
      forall i | 0 <= i < |o.items|
        ensures o.items[i].product.Some? && o.items[i].product.value in cat
      {
        assert o.items[i] == ItemFor(c[i]);
        assert c[i].id in Ids(c);
      }
    }
    var r := Reject(placed, k);
    forall p | p in st.catalog
      ensures r.state.catalog[p] == st.catalog[p]
    {
      ReturnedIsCartQuantity(c, o.items, p);
    }
    assert r.state.orders == st.orders + [o.(status := Rechazada)];
  }

  /**
   * The transaction for an available cart places its order, and rejecting
   * that order puts the product table back exactly as it was before, and
   * leaves the order on record as rejected.
   */
  lemma RejectUndoesCommit(st: Store, c: Cart, code: string)
    requires DistinctIds(c) && Available(st.catalog, c)
    ensures var placed := Commit(st, c, code);
      var r := Reject(placed.state, |st.orders|);
      && placed.outcome == Placed(|st.orders|)
      && r.outcome == Rejected
      && r.state.catalog == st.catalog
      && r.state.orders == st.orders + [placed.state.orders[|st.orders|].(status := Rechazada)]
  {
    var placed := Commit(st, c, code).state;
    var o := placed.orders[|st.orders|];
    assert placed.orders == st.orders + [o] by {
      assert placed.orders == placed.orders[..|st.orders|] + [o];
    }
    RejectAppended(st, c, code, placed.catalog, o);
  }

  /**
   * A confirmed checkout of an available cart with distinct keys places its order,
   * and rejecting that order puts the product table back exactly as it was
   * before the checkout, and leaves the order on record as rejected.
   */
  lemma RejectUndoesCheckout(s: Session, st: Store, req: Request, newCode: string)
    requires DistinctIds(s.cart) && |s.cart| > 0
    requires Confirms(req, IssuedCode(s, newCode)) && req.hasProof
    requires Available(st.catalog, s.cart)
    ensures var a := Checkout(s, st, req, newCode, false);
      var r := Reject(a.store, |st.orders|);
      && a.outcome == Placed(|st.orders|)
      && r.outcome == Rejected
      && r.state.catalog == st.catalog
      && r.state.orders == st.orders + [a.store.orders[|st.orders|].(status := Rechazada)]
  {
    var a := Checkout(s, st, req, newCode, false);
    var d := Commit(st, s.cart, IssuedCode(s, newCode));
    assert a.store == d.state && a.outcome == d.outcome by {
      ConfirmedCheckoutCommits(s, st, req, newCode);
    }
    RejectUndoesCommit(st, s.cart, IssuedCode(s, newCode));
  }

  /** The cart of a buyer who wants the one unit of product 7. */
  function LastUnitCart(price: int): Cart
  {
    [Line(7, Entry(1, price, 1))]
  }

  /** With one unit in stock, committing a cart for that unit places the order and leaves stock 0. */
  lemma CommitLastUnit(st: Store, price: int, code: string)
    requires st.catalog == map[7 := Product(price, 1, true, true)]
    ensures var d := Commit(st, LastUnitCart(price), code);
      && d.outcome == Placed(|st.orders|)
      && d.state.catalog == map[7 := Product(price, 0, true, true)]
  {
    var cart := LastUnitCart(price);
    assert DistinctIds(cart);
    assert Available(st.catalog, cart);
    var d := Commit(st, cart, code);
    assert Quantity(cart, 7) == 1;
    assert d.state.catalog[7] == st.catalog[7].(stock := st.catalog[7].stock - Quantity(cart, 7));
    assert d.state.catalog.Keys == {7};
  }

  /**
   * A confirmed submission with an image and no storage failure does what
   * the commit does to the store, and empties the session exactly when an
   * order is placed.
   */
  lemma ConfirmedCheckoutCommits(s: Session, st: Store, req: Request, newCode: string)
    requires |s.cart| > 0 && Confirms(req, IssuedCode(s, newCode)) && req.hasProof
    ensures var r, d := Checkout(s, st, req, newCode, false), Commit(st, s.cart, IssuedCode(s, newCode));
      && r.store == d.state
      && r.outcome == d.outcome
      && r.session == (if d.outcome.Placed? then Session([], None) else s.(token := Some(IssuedCode(s, newCode))))
  {
  }

  /** With one unit in stock, checking out that unit places the order and leaves stock 0. */
  lemma BuyLastUnit(st: Store, price: int, code: string)
    requires st.catalog == map[7 := Product(price, 1, true, true)]
    requires Trimmed(code)
    ensures var a := Checkout(Session(LastUnitCart(price), Some(code)), st, Submit(Some(code), true), code, false);
      && a.outcome == Placed(|st.orders|)
      && a.store.catalog == map[7 := Product(price, 0, true, true)]
  {
    var s := Session(LastUnitCart(price), Some(code));
    var req := Submit(Some(code), true);
    assert Confirms(req, IssuedCode(s, code)) by {
      StripTrimmed(code);
    }
    var a, d := Checkout(s, st, req, code, false), Commit(st, s.cart, code);
    assert a.store == d.state && a.outcome == d.outcome by {
      ConfirmedCheckoutCommits(s, st, req, code);
    }
    assert d.outcome == Placed(|st.orders|) && d.state.catalog == map[7 := Product(price, 0, true, true)] by {
      CommitLastUnit(st, price, code);
    }
  }

  /** With no stock left, committing a cart for one unit fails for lack of stock. */
  lemma CommitNoUnit(st: Store, price: int, code: string)
    requires st.catalog == map[7 := Product(price, 0, true, true)]
    ensures Commit(st, LastUnitCart(price), code) == Step(st, OutOfStock(7, 0))
  {
    assert Reserve(st.catalog, LastUnitCart(price)) == Short(7, 0);
  }

  /** With no stock left, the same checkout fails for lack of stock and changes nothing. */
  lemma NoUnitLeft(st: Store, price: int, code: string)
    requires st.catalog == map[7 := Product(price, 0, true, true)]
    requires Trimmed(code)
    ensures Checkout(Session(LastUnitCart(price), Some(code)), st, Submit(Some(code), true), code, false)
         == CheckoutResult(Session(LastUnitCart(price), Some(code)), st, OutOfStock(7, 0))
  {
    var s := Session(LastUnitCart(price), Some(code));
    var req := Submit(Some(code), true);
    assert Confirms(req, IssuedCode(s, code)) by {
      StripTrimmed(code);
    }
    var a, d := Checkout(s, st, req, code, false), Commit(st, s.cart, code);
    assert a.store == d.state && a.outcome == d.outcome && a.session == s by {
      ConfirmedCheckoutCommits(s, st, req, code);
      CommitNoUnit(st, price, code);
    }
    assert d == Step(st, OutOfStock(7, 0)) by {
      CommitNoUnit(st, price, code);
    }
  }

  /**
   * Two buyers each hold the last unit of a product in their carts. Run one
   * after the other, the first checkout places its order and leaves stock 0;
   * the second fails for lack of stock, writes no order and keeps its cart.
   */
  lemma LastUnitSoldOnce(st: Store, price: int, first: string, second: string)
    requires st.catalog == map[7 := Product(price, 1, true, true)]
    requires Trimmed(first) && Trimmed(second)
    ensures var a := Checkout(Session(LastUnitCart(price), Some(first)), st, Submit(Some(first), true), first, false);
      var b := Checkout(Session(LastUnitCart(price), Some(second)), a.store, Submit(Some(second), true), second, false);
      && a.outcome == Placed(|st.orders|)
      && b.outcome == OutOfStock(7, 0)
      && b.store == a.store
      && b.session.cart == LastUnitCart(price)
  {
    BuyLastUnit(st, price, first);
    var a := Checkout(Session(LastUnitCart(price), Some(first)), st, Submit(Some(first), true), first, false);
    NoUnitLeft(a.store, price, second);
  }

  /**
   * Two checkouts run one after the other never sell more than there was:
   * when both place their orders, every product of the second cart was in
   * stock for both carts' quantities of it together.
   */
  lemma SequentialCheckoutsNeverOversell(
    s1: Session, s2: Session, st: Store, req1: Request, req2: Request,
    code1: string, code2: string, fault1: bool, fault2: bool)
    requires DistinctIds(s1.cart) && DistinctIds(s2.cart)
    ensures var a := Checkout(s1, st, req1, code1, fault1);
      var b := Checkout(s2, a.store, req2, code2, fault2);
      a.outcome.Placed? && b.outcome.Placed? ==>
        forall i | 0 <= i < |s2.cart| ::
          && s2.cart[i].id in st.catalog
          && Quantity(s1.cart, s2.cart[i].id) + s2.cart[i].entry.qty <= st.catalog[s2.cart[i].id].stock
  {
    var a := Checkout(s1, st, req1, code1, fault1);
    var b := Checkout(s2, a.store, req2, code2, fault2);
    if a.outcome.Placed? && b.outcome.Placed? {
      assert TakesCart(st, a.store, s1.cart, IssuedCode(s1, code1)) by {
        CheckoutAllOrNothing(s1, st, req1, code1, fault1);
      }
      assert Available(a.store.catalog, s2.cart) by {
        CheckoutAllOrNothing(s2, a.store, req2, code2, fault2);
      }
      forall i | 0 <= i < |s2.cart|
        ensures s2.cart[i].id in st.catalog
        ensures Quantity(s1.cart, s2.cart[i].id) + s2.cart[i].entry.qty <= st.catalog[s2.cart[i].id].stock
      {
        var p := s2.cart[i].id;
        assert p in a.store.catalog && s2.cart[i].entry.qty <= a.store.catalog[p].stock;
      }
    }
  }

  /** After the cart is cleared a checkout finds nothing to buy and changes nothing. */
  lemma ClearedCartChecksOutNothing(s: Session, st: Store, req: Request, newCode: string, storageFault: bool)
    ensures Checkout(ClearCart(s), st, req, newCode, storageFault) == CheckoutResult(ClearCart(s), st, EmptyCart)
  {
  }
}

=== FILE: text.dfy ===
/** Python's `str.strip()` with no argument, as the checkout applies it to the submitted code. */
module Text {

  /**
   * The characters `str.isspace()` accepts: the ASCII controls 0x09-0x0D and
   * 0x1C-0x1F, the space, NEL, NO-BREAK SPACE and the Unicode space separators.
   */
  predicate IsSpace(ch: char)
  {
    || ch == ' '
    || '\t' <= ch <= '\r'
    || '\U{1C}' <= ch <= '\U{1F}'
    || ch == '\U{85}'
    || ch == '\U{A0}'
    || ch == '\U{1680}'
    || '\U{2000}' <= ch <= '\U{200A}'
    || ch == '\U{2028}'
    || ch == '\U{2029}'
    || ch == '\U{202F}'
    || ch == '\U{205F}'
    || ch == '\U{3000}'
  }

  /** Every character of `s` is white space. */
  predicate AllSpace(s: string)
  {
    forall i | 0 <= i < |s| :: IsSpace(s[i])
  }

  /** Neither end of `s` is white space. */
  predicate Trimmed(s: string)
  {
    |s| > 0 ==> !IsSpace(s[0]) && !IsSpace(s[|s| - 1])
  }

  /** Drops the leading white space: the result is the longest suffix not starting with it. */
  function TrimStart(s: string): (r: string)
    ensures |r| <= |s| && r == s[|s| - |r|..]
    ensures AllSpace(s[..|s| - |r|])
    ensures |r| > 0 ==> !IsSpace(r[0])
  {
    if |s| > 0 && IsSpace(s[0]) then TrimStart(s[1..]) else s
  }

  /** Drops the trailing white space: the result is the longest prefix not ending with it. */
  function TrimEnd(s: string): (r: string)
    ensures |r| <= |s| && r == s[..|r|]
    ensures AllSpace(s[|r|..])
    ensures |r| > 0 ==> !IsSpace(r[|r| - 1])
  {
    if |s| > 0 && IsSpace(s[|s| - 1]) then TrimEnd(s[..|s| - 1]) else s
  }

  /**
   * `s.strip()`: what is left after the white space at both ends is
   * dropped. Neither end of the result is white space, and it is empty
   * exactly when `s` is all white space.
   */
  function Strip(s: string): (r: string)
    ensures Trimmed(r)
    ensures |r| <= |s|
    ensures r == "" <==> AllSpace(s)
  {
    var t := TrimStart(s);
    assert |t| > 0 ==> !AllSpace(s) by {
      if |t| > 0 {
        assert t[0] == s[|s| - |t|];
      }
    }
    TrimEnd(t)
  }

  /** `s` is a run of white space, then `r` starting at index `i`, then another run of white space. */
  predicate SpaceAround(s: string, i: int, r: string)
  {
    && 0 <= i && i + |r| <= |s|
    && s == s[..i] + r + s[i + |r|..]
    && AllSpace(s[..i])
    && AllSpace(s[i + |r|..])
  }

  /**
   * Stripping drops only white space: `s` is a run of white space, then the
   * stripped text, then another run of white space.
   */
  lemma {:induction false} StripDropsOnlySpace(s: string)
    ensures SpaceAround(s, |s| - |TrimStart(s)|, Strip(s))
  {
    var t := TrimStart(s);
    var r := TrimEnd(t);
    TrimmedAround(s, t, r);
  }

  /**
   * If `t` is `s` with leading white space cut off, and `r` is `t` with
   * trailing white space cut off, then `s` is white space, `r`, white space.
   */
  lemma {:induction false} TrimmedAround(s: string, t: string, r: string)
    requires |t| <= |s| && t == s[|s| - |t|..] && AllSpace(s[..|s| - |t|])
    requires |r| <= |t| && r == t[..|r|] && AllSpace(t[|r|..])
    ensures SpaceAround(s, |s| - |t|, r)
  {
    Regroup(s, |s| - |t|, t, r);
  }

  /** Cutting a prefix `r` off the suffix `t == s[i..]` splits `s` in three. */
  lemma {:induction false} Regroup(s: string, i: nat, t: string, r: string)
    requires i <= |s| && t == s[i..]
    requires |r| <= |t| && r == t[..|r|]
    ensures s == s[..i] + r + s[i + |r|..]
    ensures s[i + |r|..] == t[|r|..]
  {
    assert t == r + t[|r|..];
  }

  /** Leading white space is dropped whatever follows it. */
  lemma {:induction false} TrimStartSpaces(pre: string, u: string)
    requires AllSpace(pre)
    ensures TrimStart(pre + u) == TrimStart(u)
  {
    if |pre| > 0 {
      assert (pre + u)[0] == pre[0];
      assert (pre + u)[1..] == pre[1..] + u;
      TrimStartSpaces(pre[1..], u);
    } else {
      assert pre + u == u;
    }
  }

  /** Trailing white space is dropped whatever precedes it. */
  lemma {:induction false} TrimEndSpaces(u: string, post: string)
    requires AllSpace(post)
    ensures TrimEnd(u + post) == TrimEnd(u)
  {
    if |post| > 0 {
      var s := u + post;
      assert s[|s| - 1] == post[|post| - 1];
      assert s[..|s| - 1] == u + post[..|post| - 1];
      TrimEndSpaces(u, post[..|post| - 1]);
    } else {
      assert u + post == u;
    }
  }

  /**
   * A code with no white space at its ends survives any white space typed
   * around it: `(pre + t + post).strip() == t`.
   */
  lemma {:induction false} StripPadded(pre: string, t: string, post: string)
    requires AllSpace(pre) && AllSpace(post) && Trimmed(t)
    ensures Strip(pre + t + post) == t
  {
    assert pre + t + post == pre + (t + post);
    TrimStartSpaces(pre, t + post);
    if |t| > 0 {
      assert TrimStart(t + post) == t + post by {
        assert (t + post)[0] == t[0];
      }
    } else {
      assert t + post == post;
      assert TrimStart(post) == "" by {
        TrimStartSpaces(post, "");
        assert post + "" == post;
      }
    }
    TrimEndSpaces(t, post);
  }

  /** Stripping twice is stripping once. */
  lemma {:induction false} StripIdempotent(s: string)
    ensures Strip(Strip(s)) == Strip(s)
  {
    StripTrimmed(Strip(s));
  }

  /** A text with no white space at its ends strips to itself. */
  lemma {:induction false} StripTrimmed(t: string)
    requires Trimmed(t)
    ensures Strip(t) == t
  {
    assert "" + t + "" == t;
    StripPadded("", t, "");
  }
}
